=== FILE: README.md ===
# Anime watchlist: a Dafny model

This project models the core of a chat bot that keeps one anime watchlist per user.

- **Entry** (`entry.dfy`): the ten-field watchlist record and its progress rule. Progress is clamped to the episode total. Reaching the total marks the entry `Completed` and stamps today's date.
- **WatchList** (`watchlist.dfy`): the store's operations, each a total function over the ordered list of entries. They are append, guarded delete, status update, progress update, favorite toggle, case-insensitive search, the favorites filter, random pick and details lookup. `Store` binds a list to its file. Every operation the program follows with a save overwrites the stored records with the whole new list.
- **Persistence** (`persistence.dfy`): the mapping between an entry and the ten-key record written per entry, and the rebuild `Anime(**item)` performs, constructor defaults included.
- **Commands** (`commands.dfy`): the input handling inside the command handlers. This covers the `!add` parser (split on `|`, strip, parse the episode count), the validation shared by `!add` and `/add_anime`, and the guard in front of the progress update.
- **Registry** (`registry.dfy`): the lazy map from user id to store, with one file `data/anime_list_<id>.json` per user.
- **Logs** (`logs.dfy`): the `/view_logs` text handling. It selects the last lines, then cuts their concatenation at line breaks into chunks of at most 1024 characters, each fenced into one field.
- **Text** (`text.dfy`): the Python string behaviour these rely on: `lower`, `capitalize`, `strip`, `split`/`join`, `in` on strings, and `str`/`int` on integers.
- **Wrappers** (`wrappers.dfy`): `Option` and `Result`.

The current date is a parameter `today`. `random.choice` is a parameter `k` that indexes the pool of entries not yet completed. A file on disk is represented by the list of records it holds, or `None` when it does not exist.

Where the code and the simple reading of it differ, the model follows the code:
- The log tail is `logs[-lines:] if lines < len(logs) else logs`. A negative `lines` therefore drops the first `-lines` lines rather than returning the whole log, and `Logs.Tail` states that.
- `delete_anime` does not save when it does nothing.
- `update_status` stamps the completion date on every change to `Completed`, even when one is already set.

## Model

| member | source | states |
|---|---|---|
| Entry.NewEntry | bot.py:92 | the entry carries the six given fields, has zero progress, no dates and no favorite flag, and is well formed exactly when the total is positive |
| Entry.UpdateProgress | main.py:19-23 | progress becomes `min(episodes, total)`; at or beyond the total the entry is `Completed` with today's completion date; below it, status and dates are untouched; title, preference, genre, total, link, favorite and start date never change |
| Entry.ProgressKeepsWellFormed | main.py:19-23 | from a well-formed entry (positive total, `0 <= watched <= total`), a non-negative update keeps it well formed, and a full count implies `Completed` |
| Entry.ProgressIdempotent | main.py:19-23 | repeating the same progress update gives the same entry |
| Entry.NegativeProgressBreaksWellFormed | main.py:19-23 | the rule alone lets a negative count through, so the caller's sign check is what keeps progress non-negative |
| Persistence.ToRecord | main.py:89-93 | each saved record has exactly the ten constructor keys |
| Persistence.FromRecord | main.py:7-17 | a record loads exactly when it names only known keys, has title, status and preference, and holds a value of its field's type under every key; the loaded entry saves back every value the record holds; absent genre, counts and favorite take the constructor defaults (`Unknown`, 0, 1, false), and absent dates and link are `None` |
| Persistence.Save | main.py:89-93 | one record per entry, in list order, each the ten-key record of its entry; `SaveThenLoad` is its inverse |
| Persistence.Load | main.py:99-103 | a missing file gives the empty list; otherwise the load succeeds exactly when every record rebuilds, giving one entry per record in order |
| Persistence.LoadAll | main.py:99-103 | the load succeeds exactly when every record rebuilds; it then yields one entry per record, in order, each the rebuild of its record |
| Persistence.RecordRoundTrip | main.py:89-103 | rebuilding an entry from its saved record gives back the same entry |
| Persistence.RecordCanonical | main.py:103 | a complete ten-key record that loads is exactly the saved record of the entry it loads as |
| Persistence.SaveThenLoad | main.py:88-103 | saving a list and loading it back reproduces the list, all fields and order included |
| WatchList.Filter | main.py:68-72 | the list comprehension keeps exactly the elements that pass the test, and never more than the list holds |
| WatchList.FilterIsSubsequence | main.py:68-72 | the selection is a subsequence of the list, in the list's order |
| WatchList.FilterCounts | main.py:68-72 | every passing element appears in the selection as many times as in the list, and no other element appears |
| WatchList.FilterAppend | main.py:68-72 | selecting from a concatenation is the concatenation of the selections, which is order preservation |
| WatchList.Search | main.py:68-69 | the result holds exactly the entries whose lower-cased title contains the lower-cased keyword, each as many times as the list holds it, as a subsequence of the list |
| WatchList.SearchIgnoresKeywordCase | main.py:69 | keywords equal up to case give the same results |
| WatchList.SearchEmptyKeyword | main.py:69 | the empty keyword returns the whole list |
| WatchList.SearchIgnoresStatus | main.py:48-56 | a status update never changes how many entries a search finds |
| WatchList.Favorites | main.py:71-72 | exactly the favorite entries, each as many times as the list holds it, as a subsequence of the list |
| WatchList.NotCompleted | main.py:75 | exactly the entries whose status is not `Completed` |
| WatchList.PickRandom | main.py:74-76 | `None` exactly when every entry is `Completed`; otherwise an entry of the list that is not `Completed` |
| WatchList.EveryCandidateCanBePicked | main.py:74-76 | every entry not completed is returned for some draw |
| WatchList.Details | main.py:78-82 | `None` exactly when the index is out of range; otherwise a ten-key field map that rebuilds to the entry at that index |
| WatchList.Add | main.py:37-41 | the list grows by one, earlier entries unchanged, the new entry last; its start date is set to today only when it is `Watching` with no start date |
| WatchList.AddAllKeepsOrder | main.py:37-41 | after successive adds, the earlier entries are unchanged and each added entry follows them in the order added, exactly as its own `add_anime` would store it |
| WatchList.Delete | main.py:43-46 | for an in-range entry that is not a favorite, exactly that entry is removed, with the others shifted down in order; otherwise nothing changes |
| WatchList.DeleteKeepsFavorites | main.py:43-46 | no delete changes the favorites list |
| WatchList.UpdateStatus | main.py:48-56 | entry `i` gets the new status, a start date only if it becomes `Watching` without one, and today's completion date whenever it becomes `Completed`; every other entry and field is unchanged; out of range is a no-op |
| WatchList.UpdateProgress | main.py:58-61 | entry `i` becomes the entry's progress rule applied to it: progress clamped to the total, start date kept, completion date kept below the total and today's at or beyond it; every other entry is unchanged; out of range is a no-op |
| WatchList.MarkFavorite | main.py:63-66 | only the favorite flag of entry `i` flips; out of range is a no-op |
| WatchList.MarkFavoriteTwice | main.py:63-66 | toggling twice restores the list |
| WatchList.NarutoScenario | main.py:37-41 | adding a 220-episode `Watching` entry and reporting 220 episodes leaves it `Completed`, with 220 watched and both dates today |
| WatchList.FavoriteProtectsScenario | main.py:43-46 | with the first of two entries a favorite, deleting it keeps both entries, and deleting the second leaves only the first |
| WatchList.EmptyListScenario | main.py:74-76 | an empty list yields no pick and an empty search |
| WatchList.Open | main.py:30-35 | a store opened on a path is bound to it and holds exactly that file's records, or none when the file is missing; its list is what loading those records gives, empty for a missing file; it fails exactly when the file's records do not load |
| WatchList.Apply | main.py:37-66 | the file is overwritten with the whole new list exactly when the operation saves; a no-op leaves the store unchanged; memory and file stay in agreement |
| Commands.CapitalizeNeverToWatch | bot.py:283-285 | no input capitalizes to "To Watch" |
| Commands.ValidateAdd | bot.py:278-301 | accepted exactly when the title is non-empty, the capitalized status and preference are valid and the total is positive; the first failing check is reported; an accepted entry has the capitalized values, zero progress, no dates and no favorite flag, is well formed, and is `Completed` or `Watching` |
| Commands.ParseParts | bot.py:267-276 | fewer than four parts are refused; an unparsable count is refused; a parsed count goes on to the shared validation with parts 1-3, the count, the genre and the link; an accepted entry takes its title and count from parts 1 and 4, its capitalized status and preference from parts 2 and 3, its genre from part 5 or "Unknown", and its link from part 6 or none; it is well formed, with zero progress, and never "To Watch" |
| Commands.AddParts | bot.py:266 | at least one part, none containing the bar separator and none starting or ending with white space; `JoinedPartsStrip` pins the parts as the stripped pieces between the bars |
| Commands.ParseAdd | bot.py:259-266 | no text is refused; otherwise the `|`-separated, stripped parts are checked as above |
| Commands.JoinedPartsStrip | bot.py:266 | pieces free of the bar separator, joined with it, come back as exactly those pieces stripped, spaces around the bars included |
| Commands.ParseJoined | bot.py:259-266 | two or more such pieces joined with the bar are checked as exactly those pieces, stripped |
| Commands.ParseFormatted | bot.py:259-276 | six pieces in the documented order, with any white space around the bars, parse to exactly the entry that validating their stripped values gives, the count read from the fourth piece |
| Commands.AddKeepsWellFormed | bot.py:299-302 | appending a well-formed entry keeps every entry well formed |
| Commands.AddCommand | bot.py:258-302 | a refused `!add` leaves the store unchanged; an accepted one is exactly the store's add of the parsed entry, which appends it after the unchanged earlier ones and saves; file agreement and well-formedness are kept |
| Commands.ProgressCommand | bot.py:338-349 | the update happens exactly when the index is in range and the count non-negative; an out-of-range index is reported as such, and an in-range negative count as a negative count; an update is exactly the store's progress operation; otherwise the store is unchanged; well-formedness and file agreement are kept |
| Commands.StatusCheckAsWritten | bot.py:283-287 | the statuses the check lets through are `Completed` and `Watching` only |
| Commands.ToWatchRejected | bot.py:283-287 | the documented status "To Watch", typed exactly as documented, is refused |
| Commands.TypedToWatchRejected | bot.py:266-287 | `title \| To Watch \| preference \| count`, spaced as documented, is refused as an invalid status for every non-empty title and every count |
| Commands.IntendedStatus | bot.py:283-287 | the intended check returns a valid status equal to the input up to case, or none when no valid status matches |
| Commands.IntendedAcceptsEveryStatus | bot.py:283-287 | each valid status, "To Watch" included, is accepted by the intended check in any letter case |
| Commands.IntendedExtendsAsWritten | bot.py:283-287 | the intended check accepts everything the written one does, with the same result |
| Registry.UserDataPath | bot.py:52-55 | the path is `data/anime_list_`, then the user id in decimal, then `.json` |
| Registry.UserDataPathInjective | bot.py:55 | distinct users get distinct files |
| Registry.BoundStoresAreSeparate | bot.py:49-57 | in a registry built by lookups, distinct users' stores are on distinct files |
| Registry.GetUserWatchList | bot.py:49-57 | afterwards the user is registered with the returned store; a registered user gets their store back with the registry unchanged; a new user's store is opened on `data/anime_list_<id>.json`; other users are unchanged; a load failure leaves the registry as it was; a new user's store is exactly the store opened on their file, so it holds that file's entries |
| Registry.Commit | bot.py:56-57 | the user's entry becomes the given store, other users' entries are kept, and a store on the user's own file keeps the registry bound |
| Registry.CommitThenLookup | bot.py:56-57 | after a store is put back, the next lookup returns exactly that store |
| Registry.OperationVisibleToNextLookup | bot.py:49-57 | an operation made on the store a lookup hands out is seen by the next lookup, and no other user's store changes |
| Registry.ResolveTwice | bot.py:49-57 | a second lookup returns the same store and registry, whatever the disk holds by then |
| Logs.Concat | bot.py:191 | a single line joins to itself, every selected line fits in the joined text, and the text is empty exactly when every line is; with `ConcatAppend` this is `''.join` |
| Logs.SliceFrom | bot.py:188 | a suffix of the lines: for a start `k >= 0` the lines from `k` on (none past the end); for `k < 0` the last `-k` lines (all of them when there are fewer) |
| Logs.ConcatAppend | bot.py:191 | joining two runs of lines is joining each and putting the results together |
| Logs.Tail | bot.py:188 | the result is a suffix of the log of length `min(lines, len)` for positive `lines`; the whole log for 0; `len + lines`, floored at 0, for negative `lines` |
| Logs.LastIndexOf | bot.py:198 | the position of the last occurrence of the character, or none exactly when it does not occur |
| Logs.Chunks | bot.py:194-200 | every chunk fits the limit; joining the chunks with line breaks gives back the text; the text is empty exactly when there are no chunks |
| Logs.ChunksFailIffLongLine | bot.py:194-200 | the split fails exactly when some line start is followed by `limit` characters without a line break and then more text |
| Logs.ChunkText | bot.py:194-200 | the loop terminates, computes the chunks above, and fails exactly when some line is too long |
| Logs.Fence | bot.py:196-199 | the field value is the chunk between two triple-backtick fences, six characters longer than the chunk |
| Logs.FenceAll | bot.py:194-201 | one field per chunk, in order, each its chunk fenced |
| Logs.ViewLogs | bot.py:176-209 | non-administrators are refused; a missing file gives "no logs"; otherwise the selected lines fail exactly when a line is too long, or give one fenced field per chunk, each at most 1030 characters |
| Logs.FencedFieldExceedsLimit | bot.py:194-199 | a single 1024-character line becomes one 1030-character field |
| Logs.FencedChunksFit | bot.py:194-199 | splitting at 1018 characters keeps every fenced field within 1024 |
| Text.CapitalizedTailIsLower | bot.py:284 | after `capitalize()` no character but the first is upper case |
| Text.LowerOfCapitalize | bot.py:284 | lower-casing a capitalized string equals lower-casing the original |
| Text.Lower | main.py:69 | each character is replaced by its lower-case form, length kept |
| Text.Capitalize | bot.py:284 | the first character is upper-cased and every later one lower-cased, length kept |
| Text.Strip | bot.py:266 | the result is a piece of the string with only white space around it, and neither starts nor ends with white space |
| Text.StripIdempotent | bot.py:266 | stripping twice gives the same as stripping once |
| Text.Split | bot.py:266 | at least one part, none containing the separator; `SplitThenJoin` shows the parts join back to the string |
| Text.ParseInt | bot.py:274 | succeeds exactly on an optional sign followed by one or more ASCII digits, giving the signed value of the digits |
| Text.StripUnchanged | bot.py:266 | a string without white space at either end strips to itself |
| Text.SplitThenJoin | bot.py:266 | joining the parts of a split with the separator gives back the string |
| Text.JoinThenSplit | bot.py:266 | splitting a join of separator-free parts gives back the parts |
| Text.ContainsIffOccurs | main.py:69 | `k in s` holds exactly when `k` occurs at some position of `s` |
| Text.Decimal | bot.py:55 | a non-empty string of ASCII digits with no leading zero except for 0 itself; `ParseDecimal` reads it back as the number |
| Text.ParseDecimal | bot.py:274 | `int(str(n)) == n` |
| Text.DecimalInjective | bot.py:55 | distinct user ids render to distinct strings |

## Left out

- The chat SDK: bot setup, intents, presence, command registration and sync, event dispatch, and the `ValueError` conversion of non-numeric `!progress` arguments. These are framework calls.
- Embeds, messages, the watermark, the help menus, `Anime.__repr__` and `list_anime`. They are presentation only.
- logger.py (logging setup and sends to a channel). logger.py is not part of this model.
- JSON encoding, `open`, `os.makedirs` and `os.path.exists`. A file is the list of records it holds, or absent. JSON that does not decode to a list of objects is not represented.
- Persistence.FromRecord: refuses a value of the wrong JSON type (for example a numeric title). Python's `Anime(**item)` would store such a value, and the model's typed fields cannot hold it.
- Text.Lower, Text.Capitalize: case mapping covers ASCII letters only. Python maps every Unicode letter.
- Text.ParseInt: accepts a sign and ASCII digits only. Python's `int()` also accepts `_` between digits and non-ASCII decimal digits.
- Commands.ParseAdd: an absent argument and an empty one are both the empty string.
- Commands.AddCommand: takes the user's store as given. The source resolves the store only after validation succeeds, so a refused command never creates a registry entry.
- Object identity: `add_anime` stamps the caller's `Anime` object in place, and search results share objects with the list. The model uses values, so that aliasing is not represented.
- Registry.GetUserWatchList: hands out the store as a value, where the source hands out the live object that later lookups share. A command's changes reach the registry only through an explicit `Registry.Commit`; `Registry.OperationVisibleToNextLookup` shows that this gives the sharing the source has.
- Concurrency and interleaving of commands from several users: each store is single-writer, and every operation is one atomic step.
- `delete_anime`, `update_status`, `mark_favorite`, `show_favorites` and `get_anime_details` have no command in the bot. The bot's commands are add, list, progress, random and search, plus the administrative ones. The five are modelled as store operations only.

## Findings

| source | as written | input that shows it | evidently intended | confidence | as-written member | corrected member |
|---|---|---|---|---|---|---|
| bot.py:283-287 | the status is capitalized, then looked up in `['Completed', 'To Watch', 'Watching']` | `!add Naruto \| To Watch \| High \| 220`: `capitalize()` gives "To watch", which is refused | every listed status accepted regardless of case, "To Watch" included (the help text lists it) | high, not executed | Commands.TypedToWatchRejected | Commands.IntendedStatus |
| bot.py:194-199 | the text is cut into chunks of up to 1024 characters, then each is wrapped in a pair of triple backticks | a log whose selected text is one 1024-character line yields a 1030-character field value, beyond the 1024-character embed field limit | every fenced field within 1024 characters, which needs chunks of at most 1018 | medium, not executed | Logs.FencedFieldExceedsLimit | Logs.FencedChunksFit |

=== FILE: commands.dfy ===
/**
 * The input handling inside the chat-command handlers: the `!add`
 * argument parser, the field validation shared by `!add` and `/add_anime`,
 * and the guard in front of the progress update.
 */
module Commands {
  import opened Wrappers
  import opened Text
  import opened Entry
  import opened WatchList

  const VALID_STATUSES: seq<string> := [COMPLETED, TO_WATCH, WATCHING]
  const VALID_PREFERENCES: seq<string> := [HIGH, MEDIUM, LOW]

  /** The reply an `!add` or `/add_anime` command gets instead of an added entry. */
  datatype AddError =
    | MissingArguments       // `!add` with no text
    | TooFewParts            // fewer than four `|`-separated parts
    | BadEpisodeCount        // `int(parts[3])` raised
    | EmptyTitle
    | InvalidStatus
    | InvalidPreference
    | NonPositiveEpisodes

  predicate AllWellFormed(items: seq<Anime>) {
    forall i :: 0 <= i < |items| ==> WellFormed(items[i])
  }

  /** `capitalize()` can never produce "To Watch": its fourth character would be upper case. */
  lemma CapitalizeNeverToWatch(s: string)
    ensures Capitalize(s) != TO_WATCH
  {
    if |s| == |TO_WATCH| {
      CapitalizedTailIsLower(s, 3);
    }
  }

  /**
   * The validation both add commands perform, in the source's order, and the
   * entry they then construct.
   */
  function ValidateAdd(title: string, status: string, preference: string, total: int,
                       genre: string, link: Option<string>): (r: Result<Anime, AddError>)
    ensures r.Ok? <==>
      && title != ""
      && Capitalize(status) in VALID_STATUSES
      && Capitalize(preference) in VALID_PREFERENCES
      && total > 0
    ensures title == "" ==> r == Err(EmptyTitle)
    ensures title != "" && Capitalize(status) !in VALID_STATUSES ==> r == Err(InvalidStatus)
    ensures (title != "" && Capitalize(status) in VALID_STATUSES && Capitalize(preference) !in VALID_PREFERENCES)
      ==> r == Err(InvalidPreference)
    ensures (title != "" && Capitalize(status) in VALID_STATUSES && Capitalize(preference) in VALID_PREFERENCES
             && total <= 0) ==> r == Err(NonPositiveEpisodes)
    ensures r.Ok? ==>
      && r.value.title == title && r.value.genre == genre && r.value.sourceLink == link
      && r.value.status == Capitalize(status) && r.value.preference == Capitalize(preference)
      && r.value.totalEpisodes == total && r.value.episodesWatched == 0
      && r.value.startDate.None? && r.value.completedDate.None? && !r.value.favorite
    ensures r.Ok? ==> WellFormed(r.value) && r.value.status in {COMPLETED, WATCHING}
  {
    if title == "" then Err(EmptyTitle)
    else
      var s := Capitalize(status);
      if s !in VALID_STATUSES then Err(InvalidStatus)
      else
        var p := Capitalize(preference);
        if p !in VALID_PREFERENCES then Err(InvalidPreference)
        else if total <= 0 then Err(NonPositiveEpisodes)
        else
          CapitalizeNeverToWatch(status);
          Ok(NewEntry(title, s, p, genre, total, link))
  }

  function StripAll(parts: seq<string>): (r: seq<string>)
    ensures |r| == |parts|
    ensures forall i :: 0 <= i < |parts| ==> r[i] == Strip(parts[i])
  {
    seq(|parts|, i requires 0 <= i < |parts| => Strip(parts[i]))
  }

  /** `[part.strip() for part in args.split('|')]` */
  function AddParts(args: string): (r: seq<string>)
    ensures |r| >= 1
    ensures forall i :: 0 <= i < |r| ==> '|' !in r[i]
    ensures forall i :: 0 <= i < |r| ==> |r[i]| > 0 ==> !IsSpace(r[i][0]) && !IsSpace(r[i][|r[i]| - 1])
  {
    StripAll(Split(args, '|'))
  }

  /**
   * The checks after the split: at least four parts; the count parsed
   * from part 4; genre from part 5 or "Unknown"; link from part 6 or none;
   * parts after the sixth are ignored.
   */
  function ParseParts(parts: seq<string>): (r: Result<Anime, AddError>)
    ensures |parts| < 4 ==> r == Err(TooFewParts)
    ensures |parts| >= 4 && ParseInt(parts[3]).None? ==> r == Err(BadEpisodeCount)
    ensures |parts| >= 4 && ParseInt(parts[3]).Some? ==>
      r == ValidateAdd(parts[0], parts[1], parts[2], ParseInt(parts[3]).value,
                       if |parts| > 4 then parts[4] else DEFAULT_GENRE,
                       if |parts| > 5 then Some(parts[5]) else None)
    ensures r.Ok? ==>
      && |parts| >= 4
      && r.value.title == parts[0]
      && r.value.status == Capitalize(parts[1]) && r.value.preference == Capitalize(parts[2])
      && ParseInt(parts[3]) == Some(r.value.totalEpisodes)
      && (|parts| <= 4 ==> r.value.genre == DEFAULT_GENRE)
      && (|parts| > 4 ==> r.value.genre == parts[4])
      && (r.value.sourceLink.Some? <==> |parts| > 5)
      && (|parts| > 5 ==> r.value.sourceLink == Some(parts[5]))
      && r.value.episodesWatched == 0 && r.value.startDate.None? && r.value.completedDate.None?
      && !r.value.favorite
    ensures r.Ok? ==> WellFormed(r.value) && r.value.status != TO_WATCH
  {
    if |parts| < 4 then Err(TooFewParts)
    else match ParseInt(parts[3])
      case None => Err(BadEpisodeCount)
      case Some(total) =>
        var genre := if |parts| > 4 then parts[4] else DEFAULT_GENRE;
        var link := if |parts| > 5 then Some(parts[5]) else None;
        ValidateAdd(parts[0], parts[1], parts[2], total, genre, link)
  }

  /** `!add title | status | preference | episodes | genre | source_link` */
  function ParseAdd(args: string): (r: Result<Anime, AddError>)
    ensures args == "" ==> r == Err(MissingArguments)
    ensures args != "" ==> r == ParseParts(AddParts(args))
    ensures r.Ok? ==> WellFormed(r.value) && r.value.status != TO_WATCH && r.value.episodesWatched == 0
  {
    if args == "" then Err(MissingArguments) else ParseParts(AddParts(args))
  }

  /** Pieces free of `|`, joined with `|`, come back from the parser as those pieces stripped. */
  lemma JoinedPartsStrip(raw: seq<string>)
    requires |raw| >= 1
    requires forall i :: 0 <= i < |raw| ==> '|' !in raw[i]
    ensures AddParts(Join(raw, '|')) == StripAll(raw)
  {
    JoinThenSplit(raw, '|');
  }

  /** Two or more pieces joined with `|` are checked as exactly those pieces, stripped. */
  lemma ParseJoined(raw: seq<string>)
    requires |raw| >= 2
    requires forall i :: 0 <= i < |raw| ==> '|' !in raw[i]
    ensures ParseAdd(Join(raw, '|')) == ParseParts(StripAll(raw))
  {
    JoinedPartsStrip(raw);
    JoinThenSplit(raw, '|');
  }

  /**
   * The documented format, spaces around the bars included, is understood:
   * six pieces parse to the fields they spell once stripped.
   */
  lemma ParseFormatted(raw: seq<string>, total: nat)
    requires |raw| == 6
    requires forall i :: 0 <= i < 6 ==> '|' !in raw[i]
    requires Strip(raw[3]) == Decimal(total)
    ensures ParseAdd(Join(raw, '|'))
         == ValidateAdd(Strip(raw[0]), Strip(raw[1]), Strip(raw[2]), total, Strip(raw[4]), Some(Strip(raw[5])))
  {
    ParseJoined(raw);
    ParseDecimal(total);
  }

  /**
   * Typing "To Watch" as documented, between spaced bars, is refused for any
   * non-empty title and any count.
   */
  lemma TypedToWatchRejected(raw: seq<string>, total: nat)
    requires |raw| == 4
    requires forall i :: 0 <= i < 4 ==> '|' !in raw[i]
    requires Strip(raw[0]) != "" && Strip(raw[1]) == TO_WATCH && Strip(raw[3]) == Decimal(total)
    ensures ParseAdd(Join(raw, '|')) == Err(InvalidStatus)
  {
    ParseJoined(raw);
    ParseDecimal(total);
    CapitalizeNeverToWatch(TO_WATCH);
    StatusCheckAsWritten(TO_WATCH);
  }

  /** Appending a well-formed entry keeps every entry well formed. */
  lemma AddKeepsWellFormed(items: seq<Anime>, a: Anime, today: Date)
    requires AllWellFormed(items) && WellFormed(a)
    ensures AllWellFormed(Add(items, a, today))
  {
  }

  /** The `!add` command end to end: parse, validate, then add to the user's store. */
  function AddCommand(st: Store, args: string, today: Date): (r: (Store, Result<Anime, AddError>))
    ensures r.1 == ParseAdd(args)
    ensures r.1.Err? ==> r.0 == st
    ensures r.1.Ok? ==>
      && |r.0.items| == |st.items| + 1
      && (forall j :: 0 <= j < |st.items| ==> r.0.items[j] == st.items[j])
      && r.0.items[|st.items|].title == r.1.value.title
      && (r.1.value.status == WATCHING ==> r.0.items[|st.items|].startDate == Some(today))
    ensures r.1.Ok? ==> r.0 == Apply(st, AddOp(r.1.value), today)
    ensures Consistent(st) ==> Consistent(r.0)
    ensures AllWellFormed(st.items) ==> AllWellFormed(r.0.items)
  {
    var parsed := ParseAdd(args);
    if parsed.Err? then (st, parsed)
    else
      var a := parsed.value;
      var next := Apply(st, AddOp(a), today);
      var added := Add(st.items, a, today);
      assert next.items == added;
      assert a.startDate.None?;
      assert forall j :: 0 <= j < |st.items| ==> added[j] == added[..|st.items|][j];
      assert added[|st.items|].title == a.title;
      assert a.status == WATCHING ==> added[|st.items|].startDate == Some(today);
      assert AllWellFormed(st.items) ==> AllWellFormed(next.items) by {
        if AllWellFormed(st.items) {
          AddKeepsWellFormed(st.items, a, today);
        }
      }
      (next, parsed)
  }

  datatype ProgressReply = ProgressUpdated | NegativeEpisodes | InvalidIndex

  /** `!progress index episodes`: the index is checked first, then the sign of the count. */
  function ProgressCommand(st: Store, index: int, episodes: int, today: Date): (r: (Store, ProgressReply))
    ensures r.1 == ProgressUpdated <==> InRange(st.items, index) && episodes >= 0
    ensures !InRange(st.items, index) ==> r.1 == InvalidIndex
    ensures InRange(st.items, index) && episodes < 0 ==> r.1 == NegativeEpisodes
    ensures r.1 == ProgressUpdated ==> r.0 == Apply(st, ProgressOp(index, episodes), today)
    ensures r.1 != ProgressUpdated ==> r.0 == st
    ensures r.1 == ProgressUpdated ==>
      && |r.0.items| == |st.items|
      && r.0.items[index].episodesWatched == Min(episodes, st.items[index].totalEpisodes)
      && (forall j :: 0 <= j < |st.items| && j != index ==> r.0.items[j] == st.items[j])
    ensures Consistent(st) ==> Consistent(r.0)
    ensures AllWellFormed(st.items) ==> AllWellFormed(r.0.items)
  {
    if !InRange(st.items, index) then (st, InvalidIndex)
    else if episodes < 0 then (st, NegativeEpisodes)
    else
      (Apply(st, ProgressOp(index, episodes), today), ProgressUpdated)
  }

  /** The statuses the as-written check lets through are "Completed" and "Watching" only. */
  lemma StatusCheckAsWritten(s: string)
    ensures Capitalize(s) in VALID_STATUSES <==> Capitalize(s) == COMPLETED || Capitalize(s) == WATCHING
  {
    CapitalizeNeverToWatch(s);
  }

  /** The documented status "To Watch", typed exactly as documented, is refused. */
  lemma ToWatchRejected()
    ensures ValidateAdd("Naruto", TO_WATCH, HIGH, 220, DEFAULT_GENRE, None) == Err(InvalidStatus)
  {
    CapitalizeNeverToWatch(TO_WATCH);
  }

  /** The evidently intended status check: a case-insensitive match against the valid names. */
  function IntendedStatus(s: string): (r: Option<string>)
    ensures r.Some? ==> r.value in VALID_STATUSES && Lower(r.value) == Lower(s)
    ensures r.None? ==> forall v :: v in VALID_STATUSES ==> Lower(v) != Lower(s)
  {
    if Lower(s) == Lower(COMPLETED) then Some(COMPLETED)
    else if Lower(s) == Lower(TO_WATCH) then Some(TO_WATCH)
    else if Lower(s) == Lower(WATCHING) then Some(WATCHING)
    else None
  }

  /** Every valid status, "To Watch" included, is accepted by the intended check in any case. */
  lemma IntendedAcceptsEveryStatus(s: string, v: string)
    requires v in VALID_STATUSES && Lower(s) == Lower(v)
    ensures IntendedStatus(s) == Some(v)
  {
    assert Lower(COMPLETED) != Lower(TO_WATCH) by { assert Lower(COMPLETED)[0] != Lower(TO_WATCH)[0]; }
    assert Lower(COMPLETED) != Lower(WATCHING) by { assert Lower(COMPLETED)[0] != Lower(WATCHING)[0]; }
    assert Lower(TO_WATCH) != Lower(WATCHING) by { assert Lower(TO_WATCH)[0] != Lower(WATCHING)[0]; }
  }

  /** The intended check accepts everything the as-written one does, with the same result. */
  lemma IntendedExtendsAsWritten(s: string)
    requires Capitalize(s) in VALID_STATUSES
    ensures IntendedStatus(s) == Some(Capitalize(s))
  {
    LowerOfCapitalize(s);
    IntendedAcceptsEveryStatus(s, Capitalize(s));
  }
}

=== FILE: entry.dfy ===
/**
 * One watchlist entry (the `Anime` class) and its progress rule.
 *
 * Status and preference are plain strings, as in the source: the record
 * itself accepts any value, and only the command layer validates them.
 * Dates are `%Y-%m-%d` strings; the current date is a parameter.
 */
module Entry {
  import opened Wrappers

  type Date = string

  const COMPLETED: string := "Completed"
  const TO_WATCH: string := "To Watch"
  const WATCHING: string := "Watching"

  const HIGH: string := "High"
  const MEDIUM: string := "Medium"
  const LOW: string := "Low"

  /** Defaults of the constructor's keyword parameters. */
  const DEFAULT_GENRE: string := "Unknown"
  const DEFAULT_TOTAL_EPISODES: int := 1

  datatype Anime = Anime(
    title: string,
    status: string,
    preference: string,
    genre: string,
    episodesWatched: int,
    totalEpisodes: int,
    startDate: Option<Date>,
    completedDate: Option<Date>,
    sourceLink: Option<string>,
    favorite: bool)

  /**
   * The constructor call the command handlers make:
   * `Anime(title, status, preference, genre, 0, total, source_link=link)`,
   * every other field at its default.
   */
  function NewEntry(title: string, status: string, preference: string, genre: string,
                    total: int, link: Option<string>): (r: Anime)
    ensures r.episodesWatched == 0 && r.startDate.None? && r.completedDate.None? && !r.favorite
    ensures WellFormed(r) <==> total > 0
    ensures FieldsAre(r, title, status, preference, genre, total, link)
  {
    Anime(title, status, preference, genre, 0, total, None, None, link, false)
  }

  /** The six fields a caller supplies when creating an entry. */
  predicate FieldsAre(a: Anime, title: string, status: string, preference: string, genre: string,
                      total: int, link: Option<string>) {
    && a.title == title && a.status == status && a.preference == preference
    && a.genre == genre && a.totalEpisodes == total && a.sourceLink == link
  }

  /** The fields that neither a progress update nor a status update touches. */
  predicate SameDescription(a: Anime, b: Anime) {
    && a.title == b.title
    && a.preference == b.preference
    && a.genre == b.genre
    && a.totalEpisodes == b.totalEpisodes
    && a.sourceLink == b.sourceLink
    && a.favorite == b.favorite
  }

  /** The data-model invariant: a positive total and progress within it. */
  predicate WellFormed(a: Anime) {
    0 < a.totalEpisodes && 0 <= a.episodesWatched <= a.totalEpisodes
  }

  function Min(x: int, y: int): int {
    if x <= y then x else y
  }

  /**
   * `Anime.update_progress`: progress is clamped to the total; reaching the
   * total marks the entry completed today.
   */
  function UpdateProgress(a: Anime, episodes: int, today: Date): (r: Anime)
    ensures SameDescription(a, r) && r.startDate == a.startDate
    ensures r.episodesWatched <= a.totalEpisodes
    ensures episodes <= a.totalEpisodes ==> r.episodesWatched == episodes
    ensures episodes >= a.totalEpisodes ==>
      r.episodesWatched == a.totalEpisodes && r.status == COMPLETED && r.completedDate == Some(today)
    ensures episodes < a.totalEpisodes ==>
      r.status == a.status && r.completedDate == a.completedDate
  {
    var watched := Min(episodes, a.totalEpisodes);
    if watched == a.totalEpisodes then
      a.(episodesWatched := watched, status := COMPLETED, completedDate := Some(today))
    else
      a.(episodesWatched := watched)
  }

  /** A non-negative update keeps an entry well formed, and a full count means completed. */
  lemma ProgressKeepsWellFormed(a: Anime, episodes: int, today: Date)
    requires WellFormed(a) && episodes >= 0
    ensures WellFormed(UpdateProgress(a, episodes, today))
    ensures UpdateProgress(a, episodes, today).episodesWatched == a.totalEpisodes ==>
      UpdateProgress(a, episodes, today).status == COMPLETED
  {
  }

  /** Repeating the same progress update changes nothing more. */
  lemma ProgressIdempotent(a: Anime, episodes: int, today: Date)
    ensures UpdateProgress(UpdateProgress(a, episodes, today), episodes, today)
         == UpdateProgress(a, episodes, today)
  {
  }

  /** Without a guard on the caller's side, a negative count leaves the invariant. */
  lemma NegativeProgressBreaksWellFormed(a: Anime, today: Date)
    requires WellFormed(a)
    ensures !WellFormed(UpdateProgress(a, -1, today))
  {
  }
}

=== FILE: logs.dfy ===
/**
 * The text handling inside the `/view_logs` command: selecting the last
 * lines of the day's log and cutting their concatenation into embed
 * fields of bounded length at line breaks.
 */
module Logs {
  import opened Wrappers
  import opened Text

  /** The longest value an embed field may hold. */
  const FIELD_LIMIT: nat := 1024

  /** The code fence written before and after each field's text. */
  const FENCE: string := "```"

  /** Python's `s[start:]`: a negative start counts from the end; both are clamped to the bounds. */
  function SliceFrom(s: seq<string>, start: int): (r: seq<string>)
    ensures |r| <= |s| && r == s[|s| - |r|..]
    ensures 0 <= start ==> |r| == if start < |s| then |s| - start else 0
    ensures start < 0 ==> |r| == if -start < |s| then -start else |s|
  {
    var k := if start < 0 then start + |s| else start;
    s[if k < 0 then 0 else if k > |s| then |s| else k..]
  }

  /** `logs[-lines:] if lines < len(logs) else logs` */
  function Tail(logs: seq<string>, lines: int): (r: seq<string>)
    ensures |r| <= |logs| && r == logs[|logs| - |r|..]
    ensures 0 < lines ==> |r| == if lines < |logs| then lines else |logs|
    ensures lines == 0 ==> r == logs
    ensures lines < 0 ==> |r| == if |logs| + lines < 0 then 0 else |logs| + lines
  {
    if lines < |logs| then SliceFrom(logs, -lines) else logs
  }

  /** `''.join(lines)`: `readlines` keeps each line's terminator. */
  function Concat(lines: seq<string>): (r: string)
    ensures |lines| == 1 ==> r == lines[0]
    ensures forall i :: 0 <= i < |lines| ==> |lines[i]| <= |r|
    ensures r == "" <==> forall i :: 0 <= i < |lines| ==> lines[i] == ""
    decreases |lines|
  {
    if |lines| == 0 then "" else lines[0] + Concat(lines[1..])
  }

  /** Joining two runs of lines is joining each and then putting the results together. */
  lemma {:induction false} ConcatAppend(a: seq<string>, b: seq<string>)
    ensures Concat(a + b) == Concat(a) + Concat(b)
    decreases |a|
  {
    if |a| == 0 {
      assert a + b == b;
    } else {
      ConcatAppend(a[1..], b);
      assert (a + b)[1..] == a[1..] + b;
    }
  }

  /** `s.rindex(c)`, with `None` for the `ValueError`. */
  function LastIndexOf(s: string, c: char): (r: Option<nat>)
    ensures r.None? <==> c !in s
    ensures r.Some? ==> r.value < |s| && s[r.value] == c
    ensures r.Some? ==> forall j :: r.value < j < |s| ==> s[j] != c
    decreases |s|
  {
    if |s| == 0 then None
    else if s[|s| - 1] == c then Some(|s| - 1)
    else LastIndexOf(s[..|s| - 1], c)
  }

  /** The `ValueError` `rindex` raises when a window holds no line break. */
  datatype ChunkError = NoLineBreak

  /**
   * The splitting loop as a recursion: a short enough text is the last
   * chunk; otherwise cut at the last line break within the first `limit`
   * characters and drop that line break.
   */
  function Chunks(s: string, limit: nat): (r: Result<seq<string>, ChunkError>)
    ensures r.Ok? ==> forall i :: 0 <= i < |r.value| ==> |r.value[i]| <= limit
    ensures r.Ok? ==> Join(r.value, '\n') == s
    ensures r.Ok? ==> (|r.value| == 0 <==> |s| == 0)
    decreases |s|
  {
    if |s| == 0 then Ok([])
    else if |s| <= limit then Ok([s])
    else match LastIndexOf(s[..limit], '\n')
      case None => Err(NoLineBreak)
      case Some(p) =>
        var rest := s[p + 1..];
        match Chunks(rest, limit)
        case Err(e) => Err(e)
        case Ok(more) =>
          JoinCons(s[..p], more, '\n');
          assert s == s[..p] + ['\n'] + rest;
          Ok([s[..p]] + more)
  }

  /** Line `i` starts with `limit` characters free of line breaks, and text follows them. */
  predicate LongLineAt(s: string, limit: nat, i: int) {
    && 0 <= i
    && i + limit < |s|
    && (i == 0 || s[i - 1] == '\n')
    && '\n' !in s[i..i + limit]
  }

  /** A long line of the text after a cut is a long line of the whole text. */
  lemma LongLineAfterCut(s: string, limit: nat, p: nat, j: int)
    requires p < |s| && s[p] == '\n' && LongLineAt(s[p + 1..], limit, j)
    ensures LongLineAt(s, limit, p + 1 + j)
  {
    assert s[p + 1 + j..p + 1 + j + limit] == s[p + 1..][j..j + limit];
  }

  /** A long line of the whole text lies past the last line break of the first window. */
  lemma LongLineBeyondCut(s: string, limit: nat, p: nat, i: int)
    requires p < limit < |s| && s[p] == '\n' && LongLineAt(s, limit, i)
    ensures p < i && LongLineAt(s[p + 1..], limit, i - p - 1)
  {
    assert s[p + 1..][i - p - 1..i - p - 1 + limit] == s[i..i + limit];
  }

  /** Splitting fails exactly when some line is too long to fit a chunk. */
  lemma {:induction false} ChunksFailIffLongLine(s: string, limit: nat)
    ensures Chunks(s, limit).Err? <==> exists i :: LongLineAt(s, limit, i)
    decreases |s|
  {
    if |s| > limit {
      match LastIndexOf(s[..limit], '\n')
      case None =>
        assert s[0..limit] == s[..limit];
        assert LongLineAt(s, limit, 0);
      case Some(p) =>
        var rest := s[p + 1..];
        ChunksFailIffLongLine(rest, limit);
        if j :| LongLineAt(rest, limit, j) {
          LongLineAfterCut(s, limit, p, j);
        }
        if i :| LongLineAt(s, limit, i) {
          LongLineBeyondCut(s, limit, p, i);
        }
    }
  }

  /** `Chunks(rest)` with the chunks emitted so far in front. */
  function After(emitted: seq<string>, rest: Result<seq<string>, ChunkError>): Result<seq<string>, ChunkError> {
    match rest
    case Ok(more) => Ok(emitted + more)
    case Err(e) => Err(e)
  }

  /** One turn of the loop: cutting at `p` emits the text before it. */
  lemma ChunksCut(rest: string, limit: nat, p: nat)
    requires |rest| > limit && LastIndexOf(rest[..limit], '\n') == Some(p)
    ensures Chunks(rest, limit) == After([rest[..p]], Chunks(rest[p + 1..], limit))
  {
  }

  lemma AfterAfter(emitted: seq<string>, chunk: string, r: Result<seq<string>, ChunkError>)
    ensures After(emitted, After([chunk], r)) == After(emitted + [chunk], r)
  {
    if r.Ok? {
      assert emitted + ([chunk] + r.value) == (emitted + [chunk]) + r.value;
    }
  }

  lemma AfterNothing(r: Result<seq<string>, ChunkError>)
    ensures After([], r) == r
  {
    if r.Ok? {
      assert [] + r.value == r.value;
    }
  }

  /**
   * The `while log_content:` loop of `view_logs`: each emitted chunk is at
   * most `limit` long, the chunks joined with line breaks give back the
   * text, and the loop raises exactly when some line is too long.
   */
  method ChunkText(content: string, limit: nat) returns (r: Result<seq<string>, ChunkError>)
    ensures r == Chunks(content, limit)
    ensures r.Ok? ==> forall i :: 0 <= i < |r.value| ==> |r.value[i]| <= limit
    ensures r.Ok? ==> Join(r.value, '\n') == content
    ensures r.Err? <==> exists i :: LongLineAt(content, limit, i)
  {
    ChunksFailIffLongLine(content, limit);
    var rest := content;
    var emitted: seq<string> := [];
    AfterNothing(Chunks(content, limit));
    while |rest| > 0
      invariant Chunks(content, limit) == After(emitted, Chunks(rest, limit))
      decreases |rest|
    {
      if |rest| <= limit {
        emitted := emitted + [rest];
        rest := "";
        break;
      }
      var split := LastIndexOf(rest[..limit], '\n');
      if split.None? {
        return Err(NoLineBreak);
      }
      var p := split.value;
      ChunksCut(rest, limit, p);
      AfterAfter(emitted, rest[..p], Chunks(rest[p + 1..], limit));
      emitted := emitted + [rest[..p]];
      rest := rest[p + 1..];
    }
    assert emitted + [] == emitted;
    r := Ok(emitted);
  }

  /** The embed field value written for one chunk. */
  function Fence(chunk: string): (f: string)
    ensures |f| == |chunk| + 2 * |FENCE|
    ensures f[..|FENCE|] == FENCE && f[|f| - |FENCE|..] == FENCE
    ensures f[|FENCE|..|f| - |FENCE|] == chunk
  {
    FENCE + chunk + FENCE
  }

  /** One field per chunk, each its chunk fenced. */
  function FenceAll(chunks: seq<string>): (fs: seq<string>)
    ensures |fs| == |chunks|
    ensures forall i :: 0 <= i < |chunks| ==> fs[i] == Fence(chunks[i])
  {
    seq(|chunks|, i requires 0 <= i < |chunks| => Fence(chunks[i]))
  }

  datatype LogsReply =
    | PermissionDenied
    | NoLogsToday
    | LogFields(fields: seq<string>)
    | LogsFailed

  /**
   * `/view_logs lines`: administrators only; today's log file is `None`
   * when absent. The selected lines are concatenated, split with the
   * 1024-character limit, and each chunk fenced.
   */
  method ViewLogs(isAdmin: bool, logFile: Option<seq<string>>, lines: int) returns (reply: LogsReply)
    ensures !isAdmin ==> reply == PermissionDenied
    ensures isAdmin && logFile.None? ==> reply == NoLogsToday
    ensures isAdmin && logFile.Some? ==>
      (reply == LogsFailed <==> exists i :: LongLineAt(Concat(Tail(logFile.value, lines)), FIELD_LIMIT, i))
    ensures isAdmin && logFile.Some? && reply.LogFields? ==>
      var chunks := Chunks(Concat(Tail(logFile.value, lines)), FIELD_LIMIT);
      chunks.Ok? && reply.fields == FenceAll(chunks.value)
    ensures reply.LogFields? ==> forall i :: 0 <= i < |reply.fields| ==> |reply.fields[i]| <= FIELD_LIMIT + 2 * |FENCE|
  {
    if !isAdmin {
      return PermissionDenied;
    }
    if logFile.None? {
      return NoLogsToday;
    }
    var text := Concat(Tail(logFile.value, lines));
    var chunks := ChunkText(text, FIELD_LIMIT);
    if chunks.Err? {
      assert exists i :: LongLineAt(text, FIELD_LIMIT, i);
      assert text == Concat(Tail(logFile.value, lines));
      assert exists i :: LongLineAt(Concat(Tail(logFile.value, lines)), FIELD_LIMIT, i);
      return LogsFailed;
    }
    reply := LogFields(FenceAll(chunks.value));
  }

  /** A single log line of exactly 1024 characters becomes a 1030-character field. */
  lemma FencedFieldExceedsLimit()
    ensures var line := seq(FIELD_LIMIT, _ => 'x');
      && Chunks(line, FIELD_LIMIT) == Ok([line])
      && |Fence(line)| == FIELD_LIMIT + 6
  {
  }

  /** Splitting with room left for the fences: the largest chunk size that fits. */
  const FENCED_LIMIT: nat := FIELD_LIMIT - 2 * |FENCE|

  /** With the fence-aware limit every field, fences included, fits the embed limit. */
  lemma FencedChunksFit(text: string)
    requires Chunks(text, FENCED_LIMIT).Ok?
    ensures forall c :: c in FenceAll(Chunks(text, FENCED_LIMIT).value) ==> |c| <= FIELD_LIMIT
  {
  }
}

=== FILE: persistence.dfy ===
/**
 * The mapping between entries and the ten-key records `save_data` writes
 * and `load_data` reads back with `Anime(**item)`. A record is a map from
 * field name to a JSON scalar; the bytes of the file are not modelled.
 */
module Persistence {
  import opened Wrappers
  import opened Entry

  datatype Value = VStr(s: string) | VInt(i: int) | VBool(b: bool) | VNull

  type Record = map<string, Value>

  const TITLE: string := "title"
  const STATUS: string := "status"
  const PREFERENCE: string := "preference"
  const GENRE: string := "genre"
  const EPISODES_WATCHED: string := "episodes_watched"
  const TOTAL_EPISODES: string := "total_episodes"
  const START_DATE: string := "start_date"
  const COMPLETED_DATE: string := "completed_date"
  const SOURCE_LINK: string := "source_link"
  const FAVORITE: string := "favorite"

  /** The constructor's keyword parameters, which are also the saved keys. */
  const FIELDS: set<string> := {TITLE, STATUS, PREFERENCE, GENRE, EPISODES_WATCHED,
                                TOTAL_EPISODES, START_DATE, COMPLETED_DATE, SOURCE_LINK, FAVORITE}

  /**
   * Why `Anime(**item)` refuses a record: an unexpected keyword, a missing
   * required one (title, status, preference), or a value of the wrong type.
   */
  datatype LoadError = UnexpectedField | MissingField | WrongType(field: string)

  function OptionalText(o: Option<string>): Value {
    match o
    case None => VNull
    case Some(s) => VStr(s)
  }

  /** One element of the list `save_data` builds. */
  function ToRecord(a: Anime): (m: Record)
    ensures m.Keys == FIELDS
  {
    map[TITLE := VStr(a.title),
        STATUS := VStr(a.status),
        PREFERENCE := VStr(a.preference),
        GENRE := VStr(a.genre),
        EPISODES_WATCHED := VInt(a.episodesWatched),
        TOTAL_EPISODES := VInt(a.totalEpisodes),
        START_DATE := OptionalText(a.startDate),
        COMPLETED_DATE := OptionalText(a.completedDate),
        SOURCE_LINK := OptionalText(a.sourceLink),
        FAVORITE := VBool(a.favorite)]
  }

  function TextField(m: Record, key: string, default: string): (r: Result<string, LoadError>)
    ensures r.Ok? <==> (key in m ==> m[key].VStr?)
    ensures r.Ok? ==> (if key in m then m[key] == VStr(r.value) else r.value == default)
  {
    if key !in m then Ok(default)
    else match m[key]
      case VStr(s) => Ok(s)
      case _ => Err(WrongType(key))
  }

  function IntField(m: Record, key: string, default: int): (r: Result<int, LoadError>)
    ensures r.Ok? <==> (key in m ==> m[key].VInt?)
    ensures r.Ok? ==> (if key in m then m[key] == VInt(r.value) else r.value == default)
  {
    if key !in m then Ok(default)
    else match m[key]
      case VInt(i) => Ok(i)
      case _ => Err(WrongType(key))
  }

  function BoolField(m: Record, key: string, default: bool): (r: Result<bool, LoadError>)
    ensures r.Ok? <==> (key in m ==> m[key].VBool?)
    ensures r.Ok? ==> (if key in m then m[key] == VBool(r.value) else r.value == default)
  {
    if key !in m then Ok(default)
    else match m[key]
      case VBool(b) => Ok(b)
      case _ => Err(WrongType(key))
  }

  function OptionalTextField(m: Record, key: string): (r: Result<Option<string>, LoadError>)
    ensures r.Ok? <==> (key in m ==> m[key].VStr? || m[key].VNull?)
    ensures r.Ok? ==> (if key in m then m[key] == OptionalText(r.value) else r.value.None?)
  {
    if key !in m then Ok(None)
    else match m[key]
      case VNull => Ok(None)
      case VStr(s) => Ok(Some(s))
      case _ => Err(WrongType(key))
  }

  /** The value a saved record holds under `key` has the type that field is saved with. */
  predicate HasFieldType(key: string, v: Value) {
    if key in {EPISODES_WATCHED, TOTAL_EPISODES} then v.VInt?
    else if key == FAVORITE then v.VBool?
    else if key in {START_DATE, COMPLETED_DATE, SOURCE_LINK} then v.VStr? || v.VNull?
    else v.VStr?
  }

  /** Every reader succeeds on `m`. */
  predicate AllFieldsRead(m: Record) {
    && TextField(m, TITLE, "").Ok? && TextField(m, STATUS, "").Ok? && TextField(m, PREFERENCE, "").Ok?
    && TextField(m, GENRE, DEFAULT_GENRE).Ok?
    && IntField(m, EPISODES_WATCHED, 0).Ok? && IntField(m, TOTAL_EPISODES, DEFAULT_TOTAL_EPISODES).Ok?
    && OptionalTextField(m, START_DATE).Ok? && OptionalTextField(m, COMPLETED_DATE).Ok?
    && OptionalTextField(m, SOURCE_LINK).Ok? && BoolField(m, FAVORITE, false).Ok?
  }

  /** On known keys, the readers all succeed exactly when every value has its field's type. */
  lemma ReadersSucceedIffTyped(m: Record)
    requires m.Keys <= FIELDS
    ensures AllFieldsRead(m) <==> forall k :: k in m ==> HasFieldType(k, m[k])
  {
    if AllFieldsRead(m) {
      forall k | k in m
        ensures HasFieldType(k, m[k])
      {
        assert k in FIELDS;
      }
    }
  }

  /** The entry built from the readers' values saves back every value `m` holds. */
  lemma ReadersAgree(m: Record)
    requires m.Keys <= FIELDS && AllFieldsRead(m)
    ensures var a := Anime(TextField(m, TITLE, "").value, TextField(m, STATUS, "").value,
                           TextField(m, PREFERENCE, "").value, TextField(m, GENRE, DEFAULT_GENRE).value,
                           IntField(m, EPISODES_WATCHED, 0).value,
                           IntField(m, TOTAL_EPISODES, DEFAULT_TOTAL_EPISODES).value,
                           OptionalTextField(m, START_DATE).value, OptionalTextField(m, COMPLETED_DATE).value,
                           OptionalTextField(m, SOURCE_LINK).value, BoolField(m, FAVORITE, false).value);
      forall k :: k in m ==> ToRecord(a)[k] == m[k]
  {
  }

  /**
   * `Anime(**item)`: absent optional keys take the constructor's defaults.
   * A record loads exactly when it names only known fields, has the three
   * required ones, and holds a value of the right type under each key; the
   * entry then carries every value the record holds.
   */
  function FromRecord(m: Record): (r: Result<Anime, LoadError>)
    ensures r.Ok? <==>
      && m.Keys <= FIELDS && TITLE in m && STATUS in m && PREFERENCE in m
      && forall k :: k in m ==> HasFieldType(k, m[k])
    ensures r.Ok? ==> forall k :: k in m ==> ToRecord(r.value)[k] == m[k]
    ensures r.Ok? && GENRE !in m ==> r.value.genre == DEFAULT_GENRE
    ensures r.Ok? && EPISODES_WATCHED !in m ==> r.value.episodesWatched == 0
    ensures r.Ok? && TOTAL_EPISODES !in m ==> r.value.totalEpisodes == DEFAULT_TOTAL_EPISODES
    ensures r.Ok? && FAVORITE !in m ==> !r.value.favorite
    ensures r.Ok? && START_DATE !in m ==> r.value.startDate.None?
    ensures r.Ok? && COMPLETED_DATE !in m ==> r.value.completedDate.None?
    ensures r.Ok? && SOURCE_LINK !in m ==> r.value.sourceLink.None?
  {
    if !(m.Keys <= FIELDS) then Err(UnexpectedField)
    else if TITLE !in m || STATUS !in m || PREFERENCE !in m then Err(MissingField)
    else
      ReadersSucceedIffTyped(m);
      var title :- TextField(m, TITLE, "");
      var status :- TextField(m, STATUS, "");
      var preference :- TextField(m, PREFERENCE, "");
      var genre :- TextField(m, GENRE, DEFAULT_GENRE);
      var watched :- IntField(m, EPISODES_WATCHED, 0);
      var total :- IntField(m, TOTAL_EPISODES, DEFAULT_TOTAL_EPISODES);
      var started :- OptionalTextField(m, START_DATE);
      var completed :- OptionalTextField(m, COMPLETED_DATE);
      var link :- OptionalTextField(m, SOURCE_LINK);
      var favorite :- BoolField(m, FAVORITE, false);
      ReadersAgree(m);
      Ok(Anime(title, status, preference, genre, watched, total, started, completed, link, favorite))
  }

  /** `save_data`'s list comprehension. */
  function Save(items: seq<Anime>): (rs: seq<Record>)
    ensures |rs| == |items|
    ensures forall i :: 0 <= i < |items| ==> rs[i] == ToRecord(items[i])
  {
    seq(|items|, i requires 0 <= i < |items| => ToRecord(items[i]))
  }

  /** `[Anime(**item) for item in data]`: the first refused record fails the whole load. */
  function LoadAll(rs: seq<Record>): (r: Result<seq<Anime>, LoadError>)
    ensures r.Ok? <==> forall i :: 0 <= i < |rs| ==> FromRecord(rs[i]).Ok?
    ensures r.Ok? ==> |r.value| == |rs|
    ensures r.Ok? ==> forall i :: 0 <= i < |rs| ==> FromRecord(rs[i]) == Ok(r.value[i])
    decreases |rs|
  {
    if |rs| == 0 then Ok([])
    else
      var first :- FromRecord(rs[0]);
      var rest :- LoadAll(rs[1..]);
      Ok([first] + rest)
  }

  /** `load_data`: a missing file (`None`) leaves the list empty. */
  function Load(file: Option<seq<Record>>): (r: Result<seq<Anime>, LoadError>)
    ensures file.None? ==> r == Ok([])
    ensures file.Some? ==> (r.Ok? <==> forall i :: 0 <= i < |file.value| ==> FromRecord(file.value[i]).Ok?)
    ensures file.Some? && r.Ok? ==>
      |r.value| == |file.value| && forall i :: 0 <= i < |file.value| ==> FromRecord(file.value[i]) == Ok(r.value[i])
  {
    match file
    case None => Ok([])
    case Some(rs) => LoadAll(rs)
  }

  /** Rebuilding an entry from its saved record gives the same entry. */
  lemma RecordRoundTrip(a: Anime)
    ensures FromRecord(ToRecord(a)) == Ok(a)
  {
  }

  /** A complete record is exactly the record of the entry it loads as. */
  lemma RecordCanonical(m: Record)
    requires m.Keys == FIELDS && FromRecord(m).Ok?
    ensures ToRecord(FromRecord(m).value) == m
  {
  }

  /** Saving a list and loading it back reproduces the list, order included. */
  lemma SaveThenLoad(items: seq<Anime>)
    ensures Load(Some(Save(items))) == Ok(items)
  {
    var rs := Save(items);
    forall i | 0 <= i < |items|
      ensures FromRecord(rs[i]) == Ok(items[i])
    {
      RecordRoundTrip(items[i]);
    }
    var loaded := LoadAll(rs);
    assert loaded.Ok?;
    assert forall i :: 0 <= i < |items| ==> Ok(loaded.value[i]) == FromRecord(rs[i]) == Ok(items[i]);
    assert loaded.value == items;
  }
}

=== FILE: registry.dfy ===
/**
 * `get_user_watchlist`: the process-wide map from user id to that user's
 * store, filled lazily. A store is created on a user's first request,
 * bound to `data/anime_list_<id>.json` and loaded from it.
 */
module Registry {
  import opened Wrappers
  import opened Text
  import opened Persistence
  import opened WatchList
  import Entry

  type UserId = nat

  const DATA_PREFIX: string := "data/anime_list_"
  const DATA_SUFFIX: string := ".json"

  /** `os.path.join('data', f'anime_list_{user_id}.json')` */
  function UserDataPath(u: UserId): (r: string)
    ensures |r| == |DATA_PREFIX| + |Decimal(u)| + |DATA_SUFFIX|
    ensures r[..|DATA_PREFIX|] == DATA_PREFIX && r[|r| - |DATA_SUFFIX|..] == DATA_SUFFIX
    ensures r[|DATA_PREFIX|..|r| - |DATA_SUFFIX|] == Decimal(u)
  {
    DATA_PREFIX + Decimal(u) + DATA_SUFFIX
  }

  /** Two users never share a file. */
  lemma UserDataPathInjective(u: UserId, v: UserId)
    requires UserDataPath(u) == UserDataPath(v)
    ensures u == v
  {
    var p := UserDataPath(u);
    assert Decimal(u) == p[|DATA_PREFIX|..|p| - |DATA_SUFFIX|];
    assert Decimal(v) == p[|DATA_PREFIX|..|p| - |DATA_SUFFIX|];
    DecimalInjective(u, v);
  }

  /** Every registered store is bound to its own user's file. */
  predicate Bound(reg: map<UserId, Store>) {
    forall v :: v in reg ==> reg[v].dataFile == UserDataPath(v)
  }

  /** In a bound registry distinct users hold stores on distinct files. */
  lemma BoundStoresAreSeparate(reg: map<UserId, Store>, u: UserId, v: UserId)
    requires Bound(reg) && u in reg && v in reg && u != v
    ensures reg[u].dataFile != reg[v].dataFile
  {
    if reg[u].dataFile == reg[v].dataFile {
      UserDataPathInjective(u, v);
    }
  }

  datatype Resolved = Resolved(registry: map<UserId, Store>, store: Store)

  /**
   * Look the user up; on a miss, open their file and register the store.
   * A file that fails to load raises, and the registry is left as it was.
   */
  function GetUserWatchList(reg: map<UserId, Store>, u: UserId, disk: map<string, seq<Record>>)
    : (r: Result<Resolved, LoadError>)
    ensures u in reg ==> r == Ok(Resolved(reg, reg[u]))
    ensures r.Ok? ==> u in r.value.registry && r.value.registry[u] == r.value.store
    ensures r.Ok? ==> r.value.registry.Keys == reg.Keys + {u}
    ensures r.Ok? ==> forall v :: v in reg && v != u ==> r.value.registry[v] == reg[v]
    ensures u !in reg && r.Ok? ==>
      r.value.store.dataFile == UserDataPath(u) && Consistent(r.value.store)
    ensures u !in reg && r.Ok? ==> Open(UserDataPath(u), disk) == Ok(r.value.store)
    ensures u !in reg && UserDataPath(u) !in disk ==> r.Ok? && r.value.store.items == []
    ensures r.Err? <==> u !in reg && Open(UserDataPath(u), disk).Err?
    ensures r.Ok? && Bound(reg) ==> Bound(r.value.registry)
  {
    if u in reg then Ok(Resolved(reg, reg[u]))
    else
      var st :- Open(UserDataPath(u), disk);
      Ok(Resolved(reg[u := st], st))
  }

  /**
   * The source hands out the live list object, so a command's changes are
   * what every later lookup sees. The model's stores are values: a command's
   * resulting store is put back under its user.
   */
  function Commit(reg: map<UserId, Store>, u: UserId, st: Store): (r: map<UserId, Store>)
    ensures r.Keys == reg.Keys + {u}
    ensures u in r && r[u] == st
    ensures forall v :: v in reg && v != u ==> r[v] == reg[v]
    ensures Bound(reg) && st.dataFile == UserDataPath(u) ==> Bound(r)
  {
    reg[u := st]
  }

  /** After a command's store is put back, the next lookup returns it, whatever is on disk. */
  lemma CommitThenLookup(reg: map<UserId, Store>, u: UserId, st: Store, disk: map<string, seq<Record>>)
    ensures GetUserWatchList(Commit(reg, u, st), u, disk) == Ok(Resolved(Commit(reg, u, st), st))
  {
  }

  /**
   * Resolving a user, running an operation on the store handed out and
   * putting it back: the next lookup sees the operation's effect, and no
   * other user's store changed.
   */
  lemma OperationVisibleToNextLookup(reg: map<UserId, Store>, u: UserId, disk: map<string, seq<Record>>,
                                     op: Op, today: Entry.Date, later: map<string, seq<Record>>)
    requires GetUserWatchList(reg, u, disk).Ok?
    ensures var res := GetUserWatchList(reg, u, disk).value;
      var after := Commit(res.registry, u, Apply(res.store, op, today));
      && GetUserWatchList(after, u, later).Ok?
      && GetUserWatchList(after, u, later).value.store.items == Step(res.store.items, op, today)
      && (forall v :: v in reg && v != u ==> after[v] == reg[v])
  {
    var res := GetUserWatchList(reg, u, disk).value;
    CommitThenLookup(res.registry, u, Apply(res.store, op, today), later);
  }

  /** Asking again returns the same store and leaves the registry alone, whatever is on disk by then. */
  lemma ResolveTwice(reg: map<UserId, Store>, u: UserId, disk: map<string, seq<Record>>,
                     later: map<string, seq<Record>>)
    requires GetUserWatchList(reg, u, disk).Ok?
    ensures GetUserWatchList(GetUserWatchList(reg, u, disk).value.registry, u, later)
         == GetUserWatchList(reg, u, disk)
  {
  }
}

=== FILE: text.dfy ===
/**
 * The parts of Python's `str` behaviour the watchlist bot relies on: case
 * mapping, `strip()`, `split(sep)` and `sep.join(...)` on one separator
 * character, the substring test `k in s`, and decimal rendering and parsing
 * of integers. Case mapping covers the ASCII letters only.
 */
module Text {
  import opened Wrappers

  predicate IsUpper(c: char) { 'A' <= c <= 'Z' }

  predicate IsLowerLetter(c: char) { 'a' <= c <= 'z' }

  predicate IsDigit(c: char) { '0' <= c <= '9' }

  /** The characters `str.isspace()` accepts, which is the set `strip()` removes. */
  predicate IsSpace(c: char) {
    var n := c as int;
    || (9 <= n <= 13)
    || (28 <= n <= 32)
    || n == 0x85 || n == 0xA0 || n == 0x1680
    || (0x2000 <= n <= 0x200A)
    || n == 0x2028 || n == 0x2029 || n == 0x202F || n == 0x205F || n == 0x3000
  }

  function LowerChar(c: char): char {
    if IsUpper(c) then (c as int + 32) as char else c
  }

  function UpperChar(c: char): char {
    if IsLowerLetter(c) then (c as int - 32) as char else c
  }

  /** `s.lower()` */
  function Lower(s: string): (r: string)
    ensures |r| == |s|
    ensures forall i :: 0 <= i < |s| ==> r[i] == LowerChar(s[i])
  {
    seq(|s|, i requires 0 <= i < |s| => LowerChar(s[i]))
  }

  /** `s.capitalize()`: the first character upper-cased, every later one lower-cased. */
  function Capitalize(s: string): (r: string)
    ensures |r| == |s|
    ensures |s| > 0 ==> r[0] == UpperChar(s[0])
    ensures forall i :: 1 <= i < |s| ==> r[i] == LowerChar(s[i])
  {
    if |s| == 0 then "" else [UpperChar(s[0])] + Lower(s[1..])
  }

  /** After `capitalize()` no character but the first is an upper-case letter. */
  lemma CapitalizedTailIsLower(s: string, i: int)
    requires 1 <= i < |s|
    ensures !IsUpper(Capitalize(s)[i])
  {
  }

  /** Lower-casing forgets what `capitalize()` did. */
  lemma LowerOfCapitalize(s: string)
    ensures Lower(Capitalize(s)) == Lower(s)
  {
  }

  // ----- strip -----

  function StripStart(s: string): (r: string)
    ensures |r| <= |s| && r == s[|s| - |r|..]
    ensures |r| > 0 ==> !IsSpace(r[0])
    ensures forall i :: 0 <= i < |s| - |r| ==> IsSpace(s[i])
    decreases |s|
  {
    if |s| > 0 && IsSpace(s[0]) then StripStart(s[1..]) else s
  }

  function StripEnd(s: string): (r: string)
    ensures |r| <= |s| && r == s[..|r|]
    ensures |r| > 0 ==> !IsSpace(r[|r| - 1])
    ensures forall i :: |r| <= i < |s| ==> IsSpace(s[i])
    decreases |s|
  {
    if |s| > 0 && IsSpace(s[|s| - 1]) then StripEnd(s[..|s| - 1]) else s
  }

  /** `r` is the piece of `s` at `lo`, and everything of `s` outside that piece is white space. */
  predicate TrimmedAt(s: string, r: string, lo: int) {
    && 0 <= lo && lo + |r| <= |s| && s[lo..lo + |r|] == r
    && (forall i :: 0 <= i < lo ==> IsSpace(s[i]))
    && (forall i :: lo + |r| <= i < |s| ==> IsSpace(s[i]))
  }

  /**
   * `s.strip()`: leading and trailing white space removed. The result is a
   * piece of `s` with only white space around it, and starts and ends with
   * something else.
   */
  function Strip(s: string): (r: string)
    ensures exists lo :: TrimmedAt(s, r, lo)
    ensures |r| > 0 ==> !IsSpace(r[0]) && !IsSpace(r[|r| - 1])
  {
    var t := StripStart(s);
    var r := StripEnd(t);
    assert TrimmedAt(s, r, |s| - |t|) by {
      assert s[|s| - |t|..][..|r|] == s[|s| - |t|..|s| - |t| + |r|];
    }
    r
  }

  /** Stripping twice strips nothing more. */
  lemma StripIdempotent(s: string)
    ensures Strip(Strip(s)) == Strip(s)
  {
    StripUnchanged(Strip(s));
  }

  /** A string that neither starts nor ends with white space is its own strip. */
  lemma StripUnchanged(s: string)
    requires |s| > 0 ==> !IsSpace(s[0]) && !IsSpace(s[|s| - 1])
    ensures Strip(s) == s
  {
  }

  // ----- split and join -----

  /** `s.split(sep)` for a one-character separator: always at least one part, none containing `sep`. */
  function Split(s: string, sep: char): (r: seq<string>)
    ensures |r| >= 1
    ensures forall i :: 0 <= i < |r| ==> sep !in r[i]
    decreases |s|
  {
    if |s| == 0 then [""]
    else if s[0] == sep then [""] + Split(s[1..], sep)
    else
      var t := Split(s[1..], sep);
      [[s[0]] + t[0]] + t[1..]
  }

  /** `sep.join(parts)` */
  function Join(parts: seq<string>, sep: char): string
    decreases |parts|
  {
    if |parts| == 0 then ""
    else if |parts| == 1 then parts[0]
    else parts[0] + [sep] + Join(parts[1..], sep)
  }

  lemma JoinCons(p: string, rest: seq<string>, sep: char)
    requires |rest| >= 1
    ensures Join([p] + rest, sep) == p + [sep] + Join(rest, sep)
  {
  }

  /** Joining the parts of a split with the same separator gives back the string. */
  lemma {:induction false} SplitThenJoin(s: string, sep: char)
    ensures Join(Split(s, sep), sep) == s
    decreases |s|
  {
    if |s| == 0 {
    } else if s[0] == sep {
      var t := Split(s[1..], sep);
      SplitThenJoin(s[1..], sep);
      JoinCons("", t, sep);
      assert s == [sep] + s[1..];
    } else {
      var t := Split(s[1..], sep);
      SplitThenJoin(s[1..], sep);
      if |t| == 1 {
        assert s == [s[0]] + s[1..];
      } else {
        var head := [s[0]] + t[0];
        JoinCons(head, t[1..], sep);
        assert t == [t[0]] + t[1..];
        JoinCons(t[0], t[1..], sep);
        assert s == [s[0]] + s[1..];
      }
    }
  }

  lemma {:induction false} SplitWithoutSep(a: string, sep: char)
    requires sep !in a
    ensures Split(a, sep) == [a]
    decreases |a|
  {
    if |a| > 0 {
      SplitWithoutSep(a[1..], sep);
      assert a == [a[0]] + a[1..];
    }
  }

  lemma {:induction false} SplitAtFirstSep(a: string, rest: string, sep: char)
    requires sep !in a
    ensures Split(a + [sep] + rest, sep) == [a] + Split(rest, sep)
    decreases |a|
  {
    var s := a + [sep] + rest;
    if |a| == 0 {
      assert s[1..] == rest;
    } else {
      assert s[1..] == a[1..] + [sep] + rest;
      SplitAtFirstSep(a[1..], rest, sep);
      assert a == [a[0]] + a[1..];
    }
  }

  /** Splitting a join of separator-free parts gives back the parts. */
  lemma {:induction false} JoinThenSplit(parts: seq<string>, sep: char)
    requires |parts| >= 1
    requires forall i :: 0 <= i < |parts| ==> sep !in parts[i]
    ensures Split(Join(parts, sep), sep) == parts
    decreases |parts|
  {
    if |parts| == 1 {
      SplitWithoutSep(parts[0], sep);
    } else {
      JoinThenSplit(parts[1..], sep);
      SplitAtFirstSep(parts[0], Join(parts[1..], sep), sep);
      assert parts == [parts[0]] + parts[1..];
    }
  }

  // ----- substring test -----

  predicate StartsWith(s: string, p: string) {
    |p| <= |s| && s[..|p|] == p
  }

  /** Python's `k in s` for strings: `k` occurs somewhere in `s`. */
  predicate Contains(s: string, k: string)
    decreases |s|
  {
    StartsWith(s, k) || (|s| > 0 && Contains(s[1..], k))
  }

  /** `k` occurs in `s` starting at position `i`. */
  predicate OccursAt(s: string, k: string, i: int) {
    0 <= i <= |s| - |k| && s[i..i + |k|] == k
  }

  /** `Contains` is exactly "`k` occurs at some position of `s`". */
  lemma {:induction false} ContainsIffOccurs(s: string, k: string)
    ensures Contains(s, k) <==> exists i :: OccursAt(s, k, i)
    decreases |s|
  {
    if |s| == 0 {
      if Contains(s, k) {
        assert OccursAt(s, k, 0);
      }
    } else {
      ContainsIffOccurs(s[1..], k);
      if StartsWith(s, k) {
        assert OccursAt(s, k, 0);
      } else if Contains(s[1..], k) {
        var j :| OccursAt(s[1..], k, j);
        assert s[1..][j..j + |k|] == s[j + 1..j + 1 + |k|];
        assert OccursAt(s, k, j + 1);
      }
      if i :| OccursAt(s, k, i) {
        if i == 0 {
          assert StartsWith(s, k);
        } else {
          assert s[1..][i - 1..i - 1 + |k|] == s[i..i + |k|];
          assert OccursAt(s[1..], k, i - 1);
        }
      }
    }
  }

  // ----- integers -----

  function DigitChar(d: nat): (c: char)
    requires d < 10
    ensures IsDigit(c)
  {
    ('0' as int + d) as char
  }

  predicate AllDigits(s: string) {
    forall i :: 0 <= i < |s| ==> IsDigit(s[i])
  }

  /** `str(n)` for a non-negative integer. */
  function Decimal(n: nat): (r: string)
    ensures |r| > 0 && AllDigits(r)
    ensures r[0] == '0' ==> n == 0
    decreases n
  {
    if n < 10 then [DigitChar(n)] else Decimal(n / 10) + [DigitChar(n % 10)]
  }

  function DigitsValue(s: string): nat
    requires AllDigits(s)
    decreases |s|
  {
    if |s| == 0 then 0 else 10 * DigitsValue(s[..|s| - 1]) + (s[|s| - 1] as int - '0' as int)
  }

  /**
   * `int(s)` for an already stripped string: an optional sign followed by
   * one or more ASCII digits; anything else is the `ValueError` outcome `None`.
   */
  function ParseInt(s: string): (r: Option<int>)
    ensures r.Some? <==> IntLiteral(s)
    ensures r.Some? && IsDigit(s[0]) ==> r == Some(DigitsValue(s))
    ensures r.Some? && s[0] == '+' ==> r == Some(DigitsValue(s[1..]))
    ensures r.Some? && s[0] == '-' ==> r.value == -(DigitsValue(s[1..]) as int)
  {
    var signed := |s| > 0 && (s[0] == '-' || s[0] == '+');
    var digits := if signed then s[1..] else s;
    if |digits| > 0 && AllDigits(digits) then
      var v := DigitsValue(digits);
      Some(if signed && s[0] == '-' then -(v as int) else v)
    else
      None
  }

  /** An optional sign followed by one or more ASCII digits. */
  predicate IntLiteral(s: string) {
    || (|s| > 0 && AllDigits(s))
    || (|s| > 1 && (s[0] == '+' || s[0] == '-') && AllDigits(s[1..]))
  }

  lemma {:induction false} DecimalValue(n: nat)
    ensures DigitsValue(Decimal(n)) == n
    decreases n
  {
    if n >= 10 {
      var d := Decimal(n);
      DecimalValue(n / 10);
      assert d[..|d| - 1] == Decimal(n / 10);
    }
  }

  /** `int(str(n)) == n`. */
  lemma ParseDecimal(n: nat)
    ensures ParseInt(Decimal(n)) == Some(n)
  {
    DecimalValue(n);
  }

  /** Distinct numbers render to distinct strings. */
  lemma DecimalInjective(m: nat, n: nat)
    requires Decimal(m) == Decimal(n)
    ensures m == n
  {
    DecimalValue(m);
    DecimalValue(n);
  }
}

=== FILE: watchlist.dfy ===
/**
 * `AnimeWatchList`: the ordered per-user list of entries and its
 * operations, each a total function over a sequence of entries. Indices
 * outside the list make the mutating operations silent no-ops.
 *
 * `Store` adds the file binding: every operation that the source follows
 * with `save_data` rewrites the stored records with the whole new list.
 */
module WatchList {
  import opened Wrappers
  import opened Entry
  import opened Persistence
  import Text

  predicate InRange(items: seq<Anime>, i: int) {
    0 <= i < |items|
  }

  // ----- order-preserving selection -----

  /** `r` is `s` with some elements left out, the rest in their original order. */
  ghost predicate Subsequence(r: seq<Anime>, s: seq<Anime>)
    decreases |s|
  {
    || |r| == 0
    || (|s| > 0 && ((r[0] == s[0] && Subsequence(r[1..], s[1..])) || Subsequence(r, s[1..])))
  }

  /** `[a for a in items if keep(a)]` */
  function Filter(items: seq<Anime>, keep: Anime -> bool): (r: seq<Anime>)
    ensures |r| <= |items|
    ensures forall a :: a in r <==> a in items && keep(a)
    decreases |items|
  {
    if |items| == 0 then []
    else if keep(items[0]) then [items[0]] + Filter(items[1..], keep)
    else Filter(items[1..], keep)
  }

  /** The selection keeps every passing element as often as the list holds it, and no other. */
  lemma {:induction false} FilterCounts(items: seq<Anime>, keep: Anime -> bool)
    ensures forall a :: multiset(Filter(items, keep))[a] == if keep(a) then multiset(items)[a] else 0
    decreases |items|
  {
    if |items| > 0 {
      FilterCounts(items[1..], keep);
      assert items == [items[0]] + items[1..];
      assert multiset(items) == multiset{items[0]} + multiset(items[1..]);
    }
  }

  /** The selection keeps the list's order. */
  lemma {:induction false} FilterIsSubsequence(items: seq<Anime>, keep: Anime -> bool)
    ensures Subsequence(Filter(items, keep), items)
    decreases |items|
  {
    if |items| > 0 {
      FilterIsSubsequence(items[1..], keep);
      var r := Filter(items, keep);
      if keep(items[0]) {
        assert r[1..] == Filter(items[1..], keep);
      }
    }
  }

  /** Selecting from a concatenation selects from each part, in order. */
  lemma {:induction false} FilterAppend(s: seq<Anime>, t: seq<Anime>, keep: Anime -> bool)
    ensures Filter(s + t, keep) == Filter(s, keep) + Filter(t, keep)
    decreases |s|
  {
    if |s| == 0 {
      assert s + t == t;
    } else {
      assert (s + t)[0] == s[0];
      assert (s + t)[1..] == s[1..] + t;
      FilterAppend(s[1..], t, keep);
      if keep(s[0]) {
        assert [s[0]] + (Filter(s[1..], keep) + Filter(t, keep))
            == ([s[0]] + Filter(s[1..], keep)) + Filter(t, keep);
      }
    }
  }

  /** Selections by tests that agree on every element are equal. */
  lemma {:induction false} FilterAgrees(s: seq<Anime>, f: Anime -> bool, g: Anime -> bool)
    requires forall a :: a in s ==> f(a) == g(a)
    ensures Filter(s, f) == Filter(s, g)
    decreases |s|
  {
    if |s| > 0 {
      FilterAgrees(s[1..], f, g);
    }
  }

  /** A selection that keeps everything is the identity. */
  lemma {:induction false} FilterAll(s: seq<Anime>, keep: Anime -> bool)
    requires forall a :: a in s ==> keep(a)
    ensures Filter(s, keep) == s
    decreases |s|
  {
    if |s| > 0 {
      FilterAll(s[1..], keep);
    }
  }

  // ----- queries -----

  /** Case-insensitive substring match of a keyword against a title. */
  predicate TitleMatches(keyword: string, a: Anime) {
    Text.Contains(Text.Lower(a.title), Text.Lower(keyword))
  }

  /** `search_anime`: the entries whose title contains the keyword, ignoring case, in list order. */
  function Search(items: seq<Anime>, keyword: string): (r: seq<Anime>)
    ensures forall a :: a in r <==> a in items && TitleMatches(keyword, a)
    ensures forall a :: multiset(r)[a] == if TitleMatches(keyword, a) then multiset(items)[a] else 0
    ensures Subsequence(r, items)
  {
    FilterIsSubsequence(items, a => TitleMatches(keyword, a));
    FilterCounts(items, a => TitleMatches(keyword, a));
    Filter(items, a => TitleMatches(keyword, a))
  }

  /** `show_favorites`: the favorite entries, in list order. */
  function Favorites(items: seq<Anime>): (r: seq<Anime>)
    ensures forall a :: a in r <==> a in items && a.favorite
    ensures forall a :: multiset(r)[a] == if a.favorite then multiset(items)[a] else 0
    ensures Subsequence(r, items)
  {
    FilterIsSubsequence(items, (a: Anime) => a.favorite);
    FilterCounts(items, (a: Anime) => a.favorite);
    Filter(items, (a: Anime) => a.favorite)
  }

  /** The pool `pick_random_anime` draws from. */
  function NotCompleted(items: seq<Anime>): (r: seq<Anime>)
    ensures forall a :: a in r <==> a in items && a.status != COMPLETED
  {
    Filter(items, (a: Anime) => a.status != COMPLETED)
  }

  /**
   * `pick_random_anime`: `random.choice` over the entries not completed.
   * The random draw is the parameter `k`, taken modulo the pool size.
   */
  function PickRandom(items: seq<Anime>, k: nat): (r: Option<Anime>)
    ensures r.None? <==> forall a :: a in items ==> a.status == COMPLETED
    ensures r.Some? ==> r.value in items && r.value.status != COMPLETED
  {
    var pool := NotCompleted(items);
    if |pool| == 0 then None
    else
      assert pool[0] in pool;
      Some(pool[k % |pool|])
  }

  /** Every entry that is not completed is a possible pick. */
  lemma EveryCandidateCanBePicked(items: seq<Anime>, a: Anime)
    requires a in items && a.status != COMPLETED
    ensures exists k: nat :: PickRandom(items, k) == Some(a)
  {
    var pool := NotCompleted(items);
    assert a in pool;
    var j: nat :| j < |pool| && pool[j] == a;
    PickAt(items, j);
  }

  /** A draw below the pool size picks that position of the pool. */
  lemma PickAt(items: seq<Anime>, j: nat)
    requires j < |NotCompleted(items)|
    ensures PickRandom(items, j) == Some(NotCompleted(items)[j])
  {
    var pool := NotCompleted(items);
    assert j % |pool| == j;
    assert PickRandom(items, j) == Some(pool[j % |pool|]);
  }

  /** `get_anime_details`: the entry's field map, or `None` out of range. */
  function Details(items: seq<Anime>, i: int): (r: Option<Record>)
    ensures r.None? <==> !InRange(items, i)
    ensures r.Some? ==> r.value.Keys == FIELDS && FromRecord(r.value) == Ok(items[i])
  {
    if InRange(items, i) then
      RecordRoundTrip(items[i]);
      Some(ToRecord(items[i]))
    else
      None
  }

  // ----- mutations -----

  /** `add_anime`: append, stamping today's start date on an undated entry being watched. */
  function Add(items: seq<Anime>, a: Anime, today: Date): (r: seq<Anime>)
    ensures |r| == |items| + 1 && r[..|items|] == items
    ensures a.status == WATCHING && a.startDate.None? ==> r[|items|] == a.(startDate := Some(today))
    ensures !(a.status == WATCHING && a.startDate.None?) ==> r[|items|] == a
  {
    var stamped := if a.status == WATCHING && a.startDate.None? then a.(startDate := Some(today)) else a;
    items + [stamped]
  }

  /** The entries `Add` appends, one call after another. */
  function AddAll(items: seq<Anime>, batch: seq<Anime>, today: Date): seq<Anime>
    decreases |batch|
  {
    if |batch| == 0 then items else AddAll(Add(items, batch[0], today), batch[1..], today)
  }

  function Titles(items: seq<Anime>): (r: seq<string>)
    ensures |r| == |items|
    ensures forall i :: 0 <= i < |items| ==> r[i] == items[i].title
  {
    seq(|items|, i requires 0 <= i < |items| => items[i].title)
  }

  /** The entry `Add` appends for `a`: `a` itself, start-dated today if it is an undated `Watching` entry. */
  function Stamped(a: Anime, today: Date): (r: Anime)
    ensures Add([], a, today) == [r]
  {
    if a.status == WATCHING && a.startDate.None? then a.(startDate := Some(today)) else a
  }

  /** Index by index: the earlier entries, then each batch entry as `Add` stamps it. */
  lemma {:induction false} AddAllAppends(items: seq<Anime>, batch: seq<Anime>, today: Date)
    ensures |AddAll(items, batch, today)| == |items| + |batch|
    ensures forall j :: 0 <= j < |items| ==> AddAll(items, batch, today)[j] == items[j]
    ensures forall j :: 0 <= j < |batch| ==> AddAll(items, batch, today)[|items| + j] == Stamped(batch[j], today)
    decreases |batch|
  {
    if |batch| > 0 {
      var next := Add(items, batch[0], today);
      AddAllAppends(next, batch[1..], today);
      var r := AddAll(items, batch, today);
      assert r == AddAll(next, batch[1..], today);
      assert next[|items|] == Stamped(batch[0], today);
      forall j | 1 <= j < |batch|
        ensures r[|items| + j] == Stamped(batch[j], today)
      {
        assert r[|next| + (j - 1)] == Stamped(batch[1..][j - 1], today);
      }
    }
  }

  /**
   * Successive adds keep the earlier entries and append the new ones in the
   * order added, each as its own `Add` would store it.
   */
  lemma AddAllKeepsOrder(items: seq<Anime>, batch: seq<Anime>, today: Date)
    ensures |AddAll(items, batch, today)| == |items| + |batch|
    ensures AddAll(items, batch, today)[..|items|] == items
    ensures forall j :: 0 <= j < |batch| ==> AddAll(items, batch, today)[|items| + j] == Add([], batch[j], today)[0]
    ensures Titles(AddAll(items, batch, today)) == Titles(items) + Titles(batch)
  {
    var r := AddAll(items, batch, today);
    AddAllAppends(items, batch, today);
    assert r[..|items|] == items;
    forall j | 0 <= j < |batch|
      ensures r[|items| + j] == Add([], batch[j], today)[0]
    {
      assert Add([], batch[j], today) == [Stamped(batch[j], today)];
    }
    assert Titles(r) == Titles(items) + Titles(batch);
  }

  /** `delete_anime`'s guard: an existing entry that is not a favorite. */
  predicate Deletable(items: seq<Anime>, i: int) {
    InRange(items, i) && !items[i].favorite
  }

  /** `delete_anime`: remove entry `i` unless it is out of range or a favorite. */
  function Delete(items: seq<Anime>, i: int): (r: seq<Anime>)
    ensures Deletable(items, i) ==>
      && |r| == |items| - 1
      && (forall j :: 0 <= j < i ==> r[j] == items[j])
      && (forall j :: i <= j < |r| ==> r[j] == items[j + 1])
      && multiset(r) + multiset{items[i]} == multiset(items)
    ensures !Deletable(items, i) ==> r == items
  {
    if Deletable(items, i) then
      assert items == items[..i] + [items[i]] + items[i + 1..];
      items[..i] + items[i + 1..]
    else
      items
  }

  /** No delete ever loses a favorite: the favorites list is unchanged. */
  lemma DeleteKeepsFavorites(items: seq<Anime>, i: int)
    ensures Favorites(Delete(items, i)) == Favorites(items)
  {
    if Deletable(items, i) {
      var keep := (a: Anime) => a.favorite;
      assert items == items[..i] + ([items[i]] + items[i + 1..]);
      FilterAppend(items[..i], [items[i]] + items[i + 1..], keep);
      FilterAppend([items[i]], items[i + 1..], keep);
      FilterAppend(items[..i], items[i + 1..], keep);
    }
  }

  /** `update_status`: set the status; stamp the start date when first watched, the completion date when completed. */
  function UpdateStatus(items: seq<Anime>, i: int, status: string, today: Date): (r: seq<Anime>)
    ensures |r| == |items|
    ensures forall j :: 0 <= j < |items| && j != i ==> r[j] == items[j]
    ensures InRange(items, i) ==>
      && r[i].status == status
      && SameDescription(items[i], r[i])
      && r[i].episodesWatched == items[i].episodesWatched
      && (status == WATCHING && items[i].startDate.None? ==> r[i].startDate == Some(today))
      && (status != WATCHING || items[i].startDate.Some? ==> r[i].startDate == items[i].startDate)
      && (status == COMPLETED ==> r[i].completedDate == Some(today))
      && (status != COMPLETED ==> r[i].completedDate == items[i].completedDate)
    ensures !InRange(items, i) ==> r == items
  {
    if InRange(items, i) then
      var a := items[i].(status := status);
      var b :=
        if status == WATCHING && a.startDate.None? then a.(startDate := Some(today))
        else if status == COMPLETED then a.(completedDate := Some(today))
        else a;
      items[i := b]
    else
      items
  }

  /** `update_progress`: apply the entry's progress rule to entry `i`. */
  function UpdateProgress(items: seq<Anime>, i: int, episodes: int, today: Date): (r: seq<Anime>)
    ensures |r| == |items|
    ensures forall j :: 0 <= j < |items| && j != i ==> r[j] == items[j]
    ensures InRange(items, i) ==>
      && SameDescription(items[i], r[i])
      && r[i].episodesWatched == Min(episodes, items[i].totalEpisodes)
      && (episodes >= items[i].totalEpisodes ==> r[i].status == COMPLETED && r[i].completedDate == Some(today))
      && (episodes < items[i].totalEpisodes ==> r[i].status == items[i].status)
      && r[i].startDate == items[i].startDate
      && (episodes < items[i].totalEpisodes ==> r[i].completedDate == items[i].completedDate)
    ensures InRange(items, i) ==> r[i] == Entry.UpdateProgress(items[i], episodes, today)
    ensures !InRange(items, i) ==> r == items
  {
    if InRange(items, i) then items[i := Entry.UpdateProgress(items[i], episodes, today)] else items
  }

  /** `mark_favorite`: flip the favorite flag of entry `i` and nothing else. */
  function MarkFavorite(items: seq<Anime>, i: int): (r: seq<Anime>)
    ensures |r| == |items|
    ensures forall j :: 0 <= j < |items| && j != i ==> r[j] == items[j]
    ensures InRange(items, i) ==> r[i].favorite != items[i].favorite && r[i].(favorite := items[i].favorite) == items[i]
    ensures !InRange(items, i) ==> r == items
  {
    if InRange(items, i) then items[i := items[i].(favorite := !items[i].favorite)] else items
  }

  /** Toggling twice restores the list. */
  lemma MarkFavoriteTwice(items: seq<Anime>, i: int)
    ensures MarkFavorite(MarkFavorite(items, i), i) == items
  {
  }

  /** Updates that leave titles alone leave every search result's size alone. */
  lemma {:induction false} SearchIgnoresStatus(items: seq<Anime>, i: int, status: string, today: Date, keyword: string)
    ensures |Search(UpdateStatus(items, i, status, today), keyword)| == |Search(items, keyword)|
  {
    if InRange(items, i) {
      var keep := (a: Anime) => TitleMatches(keyword, a);
      var r := UpdateStatus(items, i, status, today);
      assert items == items[..i] + [items[i]] + items[i + 1..];
      assert r == items[..i] + [r[i]] + items[i + 1..];
      FilterAppend(items[..i] + [items[i]], items[i + 1..], keep);
      FilterAppend(items[..i], [items[i]], keep);
      FilterAppend(items[..i] + [r[i]], items[i + 1..], keep);
      FilterAppend(items[..i], [r[i]], keep);
    }
  }

  /** Search ignores the case of the keyword. */
  lemma SearchIgnoresKeywordCase(items: seq<Anime>, k1: string, k2: string)
    requires Text.Lower(k1) == Text.Lower(k2)
    ensures Search(items, k1) == Search(items, k2)
  {
    var f1 := (a: Anime) => TitleMatches(k1, a);
    var f2 := (a: Anime) => TitleMatches(k2, a);
    FilterAgrees(items, f1, f2);
  }

  /** The empty keyword matches every title. */
  lemma SearchEmptyKeyword(items: seq<Anime>)
    ensures Search(items, "") == items
  {
    FilterAll(items, a => TitleMatches("", a));
  }

  // ----- scenarios -----

  /** Adding "Naruto" (220 episodes) and reporting 220 watched completes it today. */
  lemma NarutoScenario(today: Date)
    ensures var naruto := NewEntry("Naruto", WATCHING, HIGH, DEFAULT_GENRE, 220, None);
      var items := UpdateProgress(Add([], naruto, today), 0, 220, today);
      && |items| == 1
      && items[0].status == COMPLETED
      && items[0].episodesWatched == 220
      && items[0].startDate == Some(today)
      && items[0].completedDate == Some(today)
  {
  }

  /** With the first of two entries a favorite, deleting it does nothing; deleting the second removes it. */
  lemma FavoriteProtectsScenario(a: Anime, b: Anime, today: Date)
    requires !a.favorite && !b.favorite
    ensures var items := MarkFavorite(Add(Add([], a, today), b, today), 0);
      && |items| == 2
      && Delete(items, 0) == items
      && Delete(items, 1) == [items[0]]
  {
  }

  /** An empty list has nothing to pick and nothing to find. */
  lemma EmptyListScenario(k: nat, keyword: string)
    ensures PickRandom([], k) == None
    ensures Search([], keyword) == []
  {
  }

  // ----- the file binding -----

  /**
   * One user's watch list: its file path, the list in memory, and the
   * records last written to that file (`None` while the file is absent).
   */
  datatype Store = Store(dataFile: string, items: seq<Anime>, stored: Option<seq<Record>>)

  /** Memory and file agree: loading the file gives the list in memory. */
  predicate Consistent(st: Store) {
    Load(st.stored) == Ok(st.items)
  }

  /**
   * `AnimeWatchList(data_file)`: load the file if it exists. `disk` maps
   * each existing path to the records it holds.
   */
  function Open(path: string, disk: map<string, seq<Record>>): (r: Result<Store, LoadError>)
    ensures r.Ok? ==> Consistent(r.value) && r.value.dataFile == path
    ensures r.Ok? ==> r.value.stored == (if path in disk then Some(disk[path]) else None)
    ensures path in disk && r.Ok? ==> Load(Some(disk[path])) == Ok(r.value.items)
    ensures path !in disk ==> r == Ok(Store(path, [], None))
    ensures r.Err? <==> path in disk && LoadAll(disk[path]).Err?
  {
    var stored := if path in disk then Some(disk[path]) else None;
    var items :- Load(stored);
    Ok(Store(path, items, stored))
  }

  datatype Op =
    | AddOp(entry: Anime)
    | DeleteOp(index: int)
    | StatusOp(index: int, status: string)
    | ProgressOp(index: int, episodes: int)
    | FavoriteOp(index: int)

  /** Whether the source reaches `save_data` for this operation. */
  predicate Rewrites(items: seq<Anime>, op: Op) {
    match op
    case AddOp(_) => true
    case DeleteOp(i) => Deletable(items, i)
    case StatusOp(i, _) => InRange(items, i)
    case ProgressOp(i, _) => InRange(items, i)
    case FavoriteOp(i) => InRange(items, i)
  }

  function Step(items: seq<Anime>, op: Op, today: Date): seq<Anime> {
    match op
    case AddOp(a) => Add(items, a, today)
    case DeleteOp(i) => Delete(items, i)
    case StatusOp(i, s) => UpdateStatus(items, i, s, today)
    case ProgressOp(i, e) => UpdateProgress(items, i, e, today)
    case FavoriteOp(i) => MarkFavorite(items, i)
  }

  /**
   * A mutating operation followed by `save_data`: the file is overwritten
   * with the whole new list exactly when the source saves; a no-op leaves
   * the store as it was. Memory and file stay in agreement.
   */
  function Apply(st: Store, op: Op, today: Date): (r: Store)
    ensures r.dataFile == st.dataFile
    ensures r.items == Step(st.items, op, today)
    ensures Rewrites(st.items, op) ==> r.stored == Some(Save(r.items))
    ensures !Rewrites(st.items, op) ==> r == st
    ensures Consistent(st) ==> Consistent(r)
  {
    if Rewrites(st.items, op) then
      var items := Step(st.items, op, today);
      SaveThenLoad(items);
      Store(st.dataFile, items, Some(Save(items)))
    else
      st
  }
}

=== FILE: wrappers.dfy ===
/**
 * The Option and Result types shared by every module of the
 * model. `Option` stands for Python's `None`-or-value; `Result` stands for a
 * value or the exception a call raises.
 */
module Wrappers {

  datatype Option<+T> = None | Some(value: T)

  datatype Result<+T, +E> = Ok(value: T) | Err(error: E) {

    predicate IsFailure() {
      Err?
    }

    function PropagateFailure<U>(): Result<U, E>
      requires Err?
    {
      Err(error)
    }

    function Extract(): T
      requires Ok?
    {
      value
    }
  }
}
